=== FILE: README.md ===
# aiofluent sender: a Dafny model of the emit/retry state machine

This project models the core of `aiofluent`'s `FluentSender`, a client that ships log events to a Fluentd collector over TCP using the Fluentd Forward Protocol. Three parts are modelled:

- **EventTime codec** (`EventTime`, on top of `Bytes`). An event time is the MessagePack extension value with type code 0. Its 8-byte payload holds the seconds and then the nanoseconds, each an unsigned 32-bit big-endian word. Packing and unpacking are proved against an independent big-endian reading of byte strings, in both directions.
- **Packet tag** (`Packet`). The full tag is `base.label`, or just `base` when the label is empty. The packet is the triple (tag, time, record). A partner function recovers the label from the tag.
- **Sender state machine**:
  - `SenderSpec` holds the pure transitions over the sender's state. That state is the backlog `_pendings`, the reader and writer, `_last_error`, `_last_error_time` and `_error_count`.
  - `Sender.FluentSender` is a class that updates those fields in place. Each of its methods is proved to leave the object in the state that the matching `SenderSpec` transition gives.
  - `SenderTraces` proves properties of several sends in a row.

The network, the clock and the callbacks are inputs:

- Opening a connection is a `ConnectOutcome`: `Connected(reader, writer)` or `ConnectFailed(cause)`.
- Writing and draining is a `WriteOutcome`: `WriteOk` or `WriteRaised(cause)`. A cause is a transport-class `Failure` (`Timeout`, `Cancelled`, `OSError`) or `Unhandled`.
- The clock is one integer reading, `now`, per call.
- Calls to the overflow handler are recorded in `overflowed`. Calls to the connection factory are counted in `attempts`. Payloads handed to `writer.write` are recorded in `written`.
- An empty backlog stands for the source's `None`, because the code only tests the backlog's truthiness.

Some behaviour of the code that is easy to misread:

- `_error_count` is reset to 0 only by a successful connect in `get_writer`. A successful send does not reset it, so the threshold counts internal failures since the last connect.
- A successful send sets `_last_error_time` to 0 but keeps `_last_error`. So a zero error time does not mean that no error is recorded (`SenderTraces.SuccessKeepsLastError`).
- When the overflow handler fires during a send, it receives the old backlog followed by the new bytes, because `_pendings` has already been extended before `clean` runs.
- 1700000000 is the word 0x6553F100, so 1700000000.5 s packs as `65 53 F1 00 1D CD 65 00` (`EventTime.ExampleEncoding`).

## Model

| member | source | states |
|---|---|---|
| Bytes.PackBE | aiofluent/sender.py:54 | the n-byte word for x reads back as x in the big-endian reading, the struct ">I" pack |
| Bytes.BigEndianWord | aiofluent/sender.py:59 | the big-endian reading of 4 bytes is the weighted sum b0*2^24 + b1*2^16 + b2*2^8 + b3 that ">I" unpacks |
| Bytes.PackBigEndian | aiofluent/sender.py:54-59 | packing what a byte string denotes, at its width, gives the same bytes back |
| EventTime.New | aiofluent/sender.py:48-55 | the event time exists exactly when both words fit 32 bits unsigned (otherwise the pack raises); it has ext code 0, an 8-byte payload, seconds in the first 4 bytes big-endian and nanoseconds in the last 4 |
| EventTime.FromBytes | aiofluent/sender.py:57-60 | unpacking succeeds exactly on 8-byte payloads and yields two unsigned 32-bit values |
| EventTime.DecodeEncode | aiofluent/sender.py:49-60 | from_bytes of the packed payload returns the same (seconds, nanoseconds) pair |
| EventTime.EncodeDecode | aiofluent/sender.py:54-59 | every 8-byte payload is the packing of the pair it decodes to, with ext code 0 |
| EventTime.TruncSeconds | aiofluent/sender.py:49 | int() of a timestamp: for t >= 0 the largest whole second not above t, for t < 0 the smallest whole second not below t (toward zero) |
| EventTime.FromTimestampAsWritten | aiofluent/sender.py:49-55 | the constructor as written (seconds truncated toward zero, fraction floored) agrees with the floor-based split on every non-negative timestamp |
| EventTime.NegativeFractionEncodesPositive | aiofluent/sender.py:49-50 | as written, every timestamp t with -1 s < t < 0 is accepted and decodes to (0, t + 1 s), a positive time (-0.5 s gives +0.5 s), and every t <= -1 s is refused by the pack |
| EventTime.FromTimestamp | aiofluent/sender.py:48-60 | with floor seconds, an event time exists exactly for 0 <= t < 2^32 s, and decoding recovers t to the nanosecond (seconds * 10^9 + nanoseconds == t, with nanoseconds < 10^9, so the pair is t / 10^9 and t % 10^9) |
| EventTime.ExampleEncoding | aiofluent/sender.py:48-55 | 1700000000.5 s packs as 65 53 F1 00 1D CD 65 00 with ext code 0 |
| Packet.FullTag | aiofluent/sender.py:143-146 | the tag starts with the base tag; with a non-empty label it continues with '.' and then exactly the label, and with an empty label it is exactly the base |
| Packet.LabelOfFullTag | aiofluent/sender.py:143-146 | the label is recovered from the full tag built with it |
| Packet.FullTagOfLabel | aiofluent/sender.py:143-146 | every tag from which a label can be recovered is the full tag of that label |
| Packet.FullTagInjective | aiofluent/sender.py:143-146 | different labels give different full tags under one base |
| Packet.Make | aiofluent/sender.py:142-147 | the packet is the ordered triple whose tag carries the label, then the time, then the record, unchanged |
| SenderSpec.SetLastError | aiofluent/sender.py:217-223 | a failure is recorded with time now; None clears the error and sets the time to 0; nothing else changes |
| SenderSpec.ClearLastError | aiofluent/sender.py:225-227 | no error and error time 0 afterwards; nothing else changes |
| SenderSpec.Close | aiofluent/sender.py:229-237 | no writer afterwards; with a writer open, the reader is dropped too; with none, nothing changes |
| SenderSpec.CloseIdempotent | aiofluent/sender.py:229-237 | a second close changes nothing, and a consistent sender is left with neither reader nor writer |
| SenderSpec.CallOverflowHandler | aiofluent/sender.py:205-211 | a present handler receives the events exactly once; a missing handler receives nothing; its failures change nothing |
| SenderSpec.Clean | aiofluent/sender.py:198-203 | a non-empty backlog over the cap goes to the handler and the backlog becomes empty; otherwise the backlog becomes the given bytes whatever their length |
| SenderSpec.GetWriter | aiofluent/sender.py:111-123 | an open writer is returned with no cooldown check and no change; with no writer, nothing happens while lastErrorTime + retryTimeout > now; otherwise one factory call, where only a connect installs reader and writer and resets the error count, and a failure records its error at now |
| SenderSpec.NoAttemptIgnoresOutcome | aiofluent/sender.py:113-117 | when no connect is attempted, the result does not depend on what the network would have done |
| SenderSpec.CooldownBoundary | aiofluent/sender.py:116-117 | the cooldown comparison is strict: at exactly lastErrorTime + retryTimeout a connect is attempted, one unit earlier it is not |
| SenderSpec.OnSendFailure | aiofluent/sender.py:176-196 | any failure is recorded at now and the payload buffered; a transport failure always closes and leaves the count; any other failure adds one to the count and closes only when the count exceeds the limit |
| SenderSpec.Send | aiofluent/sender.py:152-196 | whenever a writer is at hand (the open one, or the one just connected), it is handed old backlog ++ new bytes, old first, and is the writer kept unless closed; success exactly when a writer is at hand and the write succeeds, which empties the backlog, sets the error time to 0 and keeps the error and the count; a failure buffers old backlog ++ new bytes or overflows them; a failed connect records its error at now, keeps the count and leaves no writer; the cooldown blocks the attempt without touching the error state; the reader and writer stay paired |
| SenderTraces.FailedSendsAccumulate | aiofluent/sender.py:159-203 | failed sends whose total stays within the cap all return false and leave the old backlog followed by every payload in order, with no overflow |
| SenderTraces.TwoFailedSends | aiofluent/sender.py:160-203 | two failed sends A then B leave the backlog A ++ B (A alone is kept whatever its size) |
| SenderTraces.BacklogSentOnSuccess | aiofluent/sender.py:159-175 | failed A, failed B (kept within the cap), then a successful C: the write carries A ++ B ++ C, the results are false, false, true, and no backlog is left |
| SenderTraces.OverflowDropsBacklog | aiofluent/sender.py:198-203 | a failed send over the cap with a backlog present hands the handler old ++ new once and empties the backlog |
| SenderTraces.FirstFailureKeepsAnyLength | aiofluent/sender.py:198-203 | with no backlog, the failed payload is stored whatever its length (the overflow check is lazy) |
| SenderTraces.InternalFailuresKeepConnection | aiofluent/sender.py:185-196 | internal failures on an open connection add one each to the count and keep the same writer while the count stays within the limit |
| SenderTraces.ThresholdBreachCloses | aiofluent/sender.py:185-196 | with limit K and a fresh connection, K internal failures keep it and the (K+1)-th closes it |
| SenderTraces.ListenerDown | aiofluent/sender.py:111-123 | a failed first connect records the error; a send within the cooldown fails with no new attempt; the first send at or after its end attempts again |
| SenderTraces.SuccessKeepsLastError | aiofluent/sender.py:170-184 | after a transport failure and a reconnect, a successful send keeps the recorded error while the error time is 0 |
| Sender.FluentSender.constructor | aiofluent/sender.py:64-103 | a new sender has no connection, no backlog, no error, error time 0 and count 0 |
| Sender.FluentSender.MakePacket | aiofluent/sender.py:142-147 | the packet built by a sender carries that sender's tag with the label, then the time and the record unchanged |
| Sender.FluentSender.SetLastError | aiofluent/sender.py:217-223 | the fields change as SenderSpec.SetLastError says |
| Sender.FluentSender.ClearLastError | aiofluent/sender.py:225-227 | the fields change as SenderSpec.ClearLastError says |
| Sender.FluentSender.Close | aiofluent/sender.py:229-237 | the fields change as SenderSpec.Close says, and the reader and writer stay paired |
| Sender.FluentSender.CallOverflowHandler | aiofluent/sender.py:205-211 | the record of handler calls changes as SenderSpec.CallOverflowHandler says |
| Sender.FluentSender.Clean | aiofluent/sender.py:198-203 | the backlog and the handler calls change as SenderSpec.Clean says |
| Sender.FluentSender.GetWriter | aiofluent/sender.py:111-123 | the fields and the returned writer are those of SenderSpec.GetWriter |
| Sender.FluentSender.Send | aiofluent/sender.py:152-196 | the fields, the record of written payloads and the result are those of SenderSpec.Send, and the reader and writer stay paired |

## Findings

| source | as written | input that shows it | evidently intended | confidence | as-written member | corrected member |
|---|---|---|---|---|---|---|
| aiofluent/sender.py:49-50 | the seconds are `int(timestamp)`, which truncates toward zero, but the fraction is `timestamp % 1`, which Python floors | timestamp -0.5 packs as (0, 500000000); from_bytes gives +0.5; every t in (-1 s, 0) decodes as t + 1 s (EventTime.NegativeFractionEncodesPositive) | whole seconds by floor, so that seconds plus fraction is the timestamp and every negative timestamp is refused by the unsigned pack | medium, not executed | EventTime.FromTimestampAsWritten | EventTime.FromTimestamp |

## Left out

- The asyncio lock and its lazy creation (aiofluent/sender.py:105-112, 182, 193). Calls are modelled one at a time, so two sends interleaving at their suspension points, and two sends sharing one writer, are not modelled.
- Opening a TCP connection in `connection_factory` (aiofluent/sender.py:33-43). It is TCP I/O with a timeout. Only its outcome is modelled: both stream ends, or a failure that is recorded as the last error at `now`.
- A custom connection factory that raises instead of returning None. Such an exception would reach the except clauses of `_async_send_internal`. Only factories that behave like the default one are modelled.
- `writer.write`, `drain` and `wait_for` (aiofluent/sender.py:170-171). This is socket I/O, and only its outcome is modelled. Closing the writer is only dropping the handles, since its RuntimeError is swallowed.
- `async_emit` and `async_emit_with_time` (aiofluent/sender.py:125-140), including the fallback to a diagnostic record when serialisation fails. They wrap `msgpack.packb`, a foreign serialiser whose bytes cannot be modelled. `SenderSpec.Send` is what they call.
- Serialising the packet with `msgpack.packb` and the verbose `print` of it (aiofluent/sender.py:148-150). `Packet.Make` stops at the triple.
- EventTime.FromBytes: returns the integer pair, not the float `seconds + nanoseconds / 10**9`. Timestamps are integer nanoseconds, so the float rounding of `int(timestamp)` and `timestamp % 1 * 10**9` is not modelled.
- `time.time()`. Each call takes one clock reading, `now`. The source may read the clock at several points in one call.
- The writes to `sys.stderr`, the `log_unhandled_exceptions` traceback logging, and the `last_error` getter. The first two are diagnostics and the getter is a plain field read.
- The `_async_send` catch-all that returns None (aiofluent/sender.py:155-156). No modelled step raises, so it is unreachable here.
- The constructor defaults (aiofluent/sender.py:68-75): `bufmax` 1 MiB, `retry_timeout` 30 and `error_count_limit` 10. The model takes all three as plain constructor parameters with no defaults.
- The host, port and timeout settings. They are used only by the connection factory and the write deadline, which are both outcomes here.
- The module-level global-sender helpers (aiofluent/sender.py:10-30). They only keep one process-wide instance.
- SenderSpec.CallOverflowHandler: records only that the handler received the bytes. The handler's own effects are not modelled.

=== FILE: bytes.dfy ===
/**
 * Byte strings and their reading as unsigned big-endian integers: the
 * reference definition against which the fixed-width packing of an event
 * time is proved.
 */
module Bytes {

  /** One octet of a payload. */
  type Byte = b: int | 0 <= b < 256

  /** 256^n: one more than the largest value an n-byte word holds. */
  function Pow256(n: nat): (r: nat)
    ensures r > 0
  {
    if n == 0 then 1 else 256 * Pow256(n - 1)
  }

  /** The unsigned integer a byte string denotes, most significant byte first. */
  function BigEndian(b: seq<Byte>): (r: nat)
    ensures r < Pow256(|b|)
  {
    if b == [] then 0 else BigEndian(b[..|b| - 1]) * 256 + b[|b| - 1]
  }

  /**
   * The n-byte big-endian word holding x, as a fixed-width unsigned pack
   * writes it (struct format "I" with the ">" byte order, for n == 4).
   */
  function PackBE(x: nat, n: nat): (r: seq<Byte>)
    requires x < Pow256(n)
    ensures |r| == n && BigEndian(r) == x
  {
    if n == 0 then []
    else
      var hi := PackBE(x / 256, n - 1);
      assert (hi + [x % 256])[..n - 1] == hi;
      hi + [x % 256]
  }

  /** A 4-byte word is the weighted sum of its bytes, the most significant first. */
  lemma BigEndianWord(b: seq<Byte>)
    requires |b| == 4
    ensures BigEndian(b) == b[0] as int * 0x100_0000 + b[1] as int * 0x1_0000 + b[2] as int * 0x100 + b[3] as int
  {
    assert b[..3][..2] == b[..2] && b[..2][..1] == b[..1] && b[..1][..0] == [];
    assert BigEndian(b[..1]) == b[0];
    assert BigEndian(b[..2]) == b[0] as int * 0x100 + b[1] as int;
    assert BigEndian(b[..3]) == b[0] as int * 0x1_0000 + b[1] as int * 0x100 + b[2] as int;
  }

  /** Packing what a byte string denotes, at its own width, gives it back. */
  lemma {:induction false} PackBigEndian(b: seq<Byte>)
    ensures PackBE(BigEndian(b), |b|) == b
  {
    if b != [] {
      var init, last := b[..|b| - 1], b[|b| - 1];
      PackBigEndian(init);
      assert BigEndian(b) / 256 == BigEndian(init);
      assert BigEndian(b) % 256 == last;
      assert b == init + [last];
    }
  }

  /** Two words of the same width are equal exactly when they denote the same number. */
  lemma BigEndianInjective(a: seq<Byte>, b: seq<Byte>)
    requires |a| == |b| && BigEndian(a) == BigEndian(b)
    ensures a == b
  {
  }
}

=== FILE: event_time.dfy ===
/**
 * The EventTime extension value of the Fluentd Forward Protocol: an event
 * time carried as MessagePack ext type 0 whose 8-byte payload is the
 * seconds and then the nanoseconds, each an unsigned 32-bit big-endian word.
 *
 * Timestamps are whole numbers of nanoseconds since the epoch; the source's
 * float timestamp and its rounding are not modelled.
 */
module EventTime {
  import opened Wrappers
  import opened Bytes

  /** The ext type code reserved for EventTime. */
  const ExtCode := 0
  /** One more than the largest unsigned 32-bit word. */
  const WordLimit := 0x1_0000_0000
  const NanosPerSecond := 1_000_000_000

  /** A MessagePack extension value: a type code and an opaque payload. */
  datatype ExtType = ExtType(code: int, data: seq<Byte>)

  /**
   * EventTime from its seconds and nanoseconds: both packed as ">II".
   * None where the pack raises, that is where either value does not fit an
   * unsigned 32-bit word.
   */
  function New(seconds: int, nanoseconds: int): (r: Option<ExtType>)
    ensures r.Some? <==> 0 <= seconds < WordLimit && 0 <= nanoseconds < WordLimit
    ensures r.Some? ==> r.value.code == ExtCode && |r.value.data| == 8
    ensures r.Some? ==> BigEndian(r.value.data[..4]) == seconds && BigEndian(r.value.data[4..]) == nanoseconds
  {
    if 0 <= seconds < WordLimit && 0 <= nanoseconds < WordLimit then
      var hi, lo := PackBE(seconds, 4), PackBE(nanoseconds, 4);
      assert (hi + lo)[..4] == hi && (hi + lo)[4..] == lo;
      Some(ExtType(ExtCode, hi + lo))
    else
      None
  }

  /**
   * EventTime.from_bytes up to the float: the two words ">II" unpacks.
   * None where the unpack raises, that is where the payload is not 8 bytes.
   */
  function FromBytes(b: seq<Byte>): (r: Option<(int, int)>)
    ensures r.Some? <==> |b| == 8
    ensures r.Some? ==> 0 <= r.value.0 < WordLimit && 0 <= r.value.1 < WordLimit
  {
    if |b| == 8 then Some((BigEndian(b[..4]), BigEndian(b[4..]))) else None
  }

  /** Decoding an encoded event time gives back its seconds and nanoseconds. */
  lemma DecodeEncode(seconds: int, nanoseconds: int)
    requires 0 <= seconds < WordLimit && 0 <= nanoseconds < WordLimit
    ensures New(seconds, nanoseconds).Some?
    ensures FromBytes(New(seconds, nanoseconds).value.data) == Some((seconds, nanoseconds))
  {
  }

  /** Every 8-byte payload is the encoding of the pair it decodes to. */
  lemma EncodeDecode(b: seq<Byte>)
    requires |b| == 8
    ensures FromBytes(b).Some?
    ensures New(FromBytes(b).value.0, FromBytes(b).value.1) == Some(ExtType(ExtCode, b))
  {
    var e := New(FromBytes(b).value.0, FromBytes(b).value.1).value;
    BigEndianInjective(e.data[..4], b[..4]);
    BigEndianInjective(e.data[4..], b[4..]);
    assert e.data == e.data[..4] + e.data[4..];
    assert b == b[..4] + b[4..];
  }

  /** int(timestamp) for a timestamp in nanoseconds: Python's int() truncates toward zero. */
  function TruncSeconds(t: int): (r: int)
    ensures 0 <= t ==> 0 <= r && r * NanosPerSecond <= t < (r + 1) * NanosPerSecond
    ensures t < 0 ==> r <= 0 && (r - 1) * NanosPerSecond < t <= r * NanosPerSecond
  {
    if t >= 0 then t / NanosPerSecond else -((-t) / NanosPerSecond)
  }

  /**
   * EventTime(timestamp) as written: the seconds are int(timestamp), which
   * truncates toward zero, while the nanoseconds come from timestamp % 1,
   * which Python floors. The two disagree for negative timestamps.
   */
  function FromTimestampAsWritten(t: int): (r: Option<ExtType>)
    ensures 0 <= t ==> r == FromTimestamp(t)
  {
    New(TruncSeconds(t), t % NanosPerSecond)
  }

  /**
   * As written, a timestamp t strictly between -1 s and 0 s is accepted and
   * encodes the positive time t + 1 s (so -0.5 s packs as (0, 500000000),
   * that is +0.5 s), while every t at or below -1 s is refused.
   */
  lemma NegativeFractionEncodesPositive(t: int)
    requires t < 0
    ensures -NanosPerSecond < t ==> FromTimestampAsWritten(t).Some?
    ensures -NanosPerSecond < t ==> FromBytes(FromTimestampAsWritten(t).value.data) == Some((0, t + NanosPerSecond))
    ensures t <= -NanosPerSecond ==> FromTimestampAsWritten(t).None?
  {
  }

  /**
   * EventTime(timestamp) with the whole seconds taken by floor, so that the
   * seconds and the fraction always add up to the timestamp: an event time
   * exists exactly for 0 <= t < 2^32 s, and decoding it recovers t to the
   * nanosecond.
   */
  function FromTimestamp(t: int): (r: Option<ExtType>)
    ensures r.Some? <==> 0 <= t < WordLimit * NanosPerSecond
    ensures r.Some? ==> r.value.code == ExtCode && FromBytes(r.value.data).Some?
    ensures r.Some? ==> FromBytes(r.value.data).value.0 * NanosPerSecond + FromBytes(r.value.data).value.1 == t
    ensures r.Some? ==> FromBytes(r.value.data).value.1 < NanosPerSecond
  {
    var seconds, nanoseconds := t / NanosPerSecond, t % NanosPerSecond;
    if 0 <= seconds < WordLimit then DecodeEncode(seconds, nanoseconds); New(seconds, nanoseconds)
    else New(seconds, nanoseconds)
  }

  /** 1700000000.5 s encodes as seconds 0x6553F100 and nanoseconds 0x1DCD6500. */
  lemma ExampleEncoding()
    ensures FromTimestamp(1_700_000_000_500_000_000)
         == Some(ExtType(0, [0x65, 0x53, 0xF1, 0x00, 0x1D, 0xCD, 0x65, 0x00]))
  {
    var b: seq<Byte> := [0x65, 0x53, 0xF1, 0x00, 0x1D, 0xCD, 0x65, 0x00];
    BigEndianWord(b[..4]);
    BigEndianWord(b[4..]);
    assert FromBytes(b) == Some((1_700_000_000, 500_000_000));
    EncodeDecode(b);
  }
}

=== FILE: packet.dfy ===
/**
 * The Forward-protocol event triple (tag, time, record) that
 * FluentSender._make_packet hands to the MessagePack serialiser, and the
 * rule that builds its fully-qualified tag.
 */
module Packet {
  import opened Wrappers
  import opened EventTime

  /** One event as sent on the wire, before serialisation. */
  datatype Packet<D> = Packet(tag: string, time: ExtType, record: D)

  /**
   * The fully-qualified tag: the sender's base tag, then a dot and the label
   * when the label is non-empty. A label of None is falsy like "" and is
   * the empty string here.
   */
  function FullTag(base: string, eventLabel: string): (r: string)
    ensures |r| == if eventLabel == [] then |base| else |base| + 1 + |eventLabel|
    ensures r[..|base|] == base
    ensures eventLabel != [] ==> r[|base|] == '.' && r[|base| + 1..] == eventLabel
  {
    if eventLabel == [] then base else base + "." + eventLabel
  }

  /** The label a tag was built from under a base tag, if it was built from one. */
  function LabelOf(base: string, tag: string): (r: Option<string>)
    ensures r.Some? && r.value != [] ==> |tag| == |base| + 1 + |r.value|
  {
    if tag == base then Some("")
    else if |tag| > |base| + 1 && tag[..|base|] == base && tag[|base|] == '.' then Some(tag[|base| + 1..])
    else None
  }

  /** The label is recovered from the tag built with it. */
  lemma LabelOfFullTag(base: string, eventLabel: string)
    ensures LabelOf(base, FullTag(base, eventLabel)) == Some(eventLabel)
  {
  }

  /** Every tag that carries a label is the full tag of that label. */
  lemma FullTagOfLabel(base: string, tag: string)
    requires LabelOf(base, tag).Some?
    ensures FullTag(base, LabelOf(base, tag).value) == tag
  {
  }

  /** Different labels give different tags under the same base. */
  lemma FullTagInjective(base: string, label1: string, label2: string)
    requires FullTag(base, label1) == FullTag(base, label2)
    ensures label1 == label2
  {
  }

  /** The packet for a label, time and record: the ordered triple with the full tag first. */
  function Make<D>(base: string, eventLabel: string, time: ExtType, record: D): (p: Packet<D>)
    ensures LabelOf(base, p.tag) == Some(eventLabel)
    ensures p.time == time && p.record == record
  {
    Packet(FullTag(base, eventLabel), time, record)
  }
}

=== FILE: sender.dfy ===
/**
 * FluentSender as an object whose methods update its fields in place. Each
 * method leaves the object in the state the matching SenderSpec transition
 * gives, so everything proved there holds of the object.
 */
module Sender {
  import opened Wrappers
  import opened Bytes
  import SenderSpec
  import EventTime
  import Packet

  class FluentSender {
    const tag: string
    const bufmax: int
    const retryTimeout: int
    const errorCountLimit: int
    const hasOverflowHandler: bool

    var pendings: seq<Byte>
    var reader: Option<SenderSpec.Handle>
    var writer: Option<SenderSpec.Handle>
    var lastError: Option<SenderSpec.Failure>
    var lastErrorTime: int
    var errorCount: nat
    /** Every payload handed to the overflow handler, in order. */
    ghost var overflowed: seq<seq<Byte>>
    /** The number of calls made to the connection factory. */
    ghost var attempts: nat
    /** Every payload handed to writer.write, in order. */
    ghost var written: seq<seq<Byte>>

    ghost function Settings(): SenderSpec.Config {
      SenderSpec.Config(bufmax, retryTimeout, errorCountLimit, hasOverflowHandler)
    }

    /** The object's state as a value. */
    ghost function Model(): SenderSpec.State
      reads this
    {
      SenderSpec.State(pendings, reader, writer, lastError, lastErrorTime, errorCount, overflowed, attempts, written)
    }

    ghost predicate Valid()
      reads this
    {
      SenderSpec.Valid(Model())
    }

    /** A sender with no connection, no backlog and no recorded error. */
    constructor (tag: string, bufmax: int, retryTimeout: int, errorCountLimit: int, hasOverflowHandler: bool)
      ensures Valid() && Model() == SenderSpec.Initial
      ensures this.tag == tag && Settings() == SenderSpec.Config(bufmax, retryTimeout, errorCountLimit, hasOverflowHandler)
    {
      this.tag := tag;
      this.bufmax := bufmax;
      this.retryTimeout := retryTimeout;
      this.errorCountLimit := errorCountLimit;
      this.hasOverflowHandler := hasOverflowHandler;
      pendings, reader, writer := [], None, None;
      lastError, lastErrorTime, errorCount := None, 0, 0;
      overflowed, attempts, written := [], 0, [];
    }

    /** _make_packet up to serialisation: the triple carries this sender's tag with the label. */
    function MakePacket<D>(eventLabel: string, time: EventTime.ExtType, record: D): (p: Packet.Packet<D>)
      ensures Packet.LabelOf(tag, p.tag) == Some(eventLabel)
      ensures p.time == time && p.record == record
    {
      Packet.Make(tag, eventLabel, time, record)
    }

    /** The last_error setter. */
    method SetLastError(err: Option<SenderSpec.Failure>, now: int)
      modifies this
      ensures Model() == SenderSpec.SetLastError(old(Model()), err, now)
    {
      if err.Some? {
        lastError := err;
        lastErrorTime := now;
      } else {
        ClearLastError();
      }
    }

    method ClearLastError()
      modifies this
      ensures Model() == SenderSpec.ClearLastError(old(Model()))
    {
      lastError := None;
      lastErrorTime := 0;
    }

    /** Closing the writer cannot fail here: the "event loop already closed" error is swallowed. */
    method Close()
      modifies this
      ensures Model() == SenderSpec.Close(old(Model()))
      ensures old(Valid()) ==> Valid()
    {
      if writer.Some? {
        reader := None;
        writer := None;
      }
    }

    method CallOverflowHandler(events: seq<Byte>)
      modifies this
      ensures Model() == SenderSpec.CallOverflowHandler(Settings(), old(Model()), events)
    {
      if hasOverflowHandler {
        overflowed := overflowed + [events];
      }
    }

    method Clean(bytes: seq<Byte>)
      modifies this
      ensures Model() == SenderSpec.Clean(Settings(), old(Model()), bytes)
    {
      if |pendings| > 0 && |pendings| > bufmax {
        CallOverflowHandler(pendings);
        pendings := [];
      } else {
        pendings := bytes;
      }
    }

    method GetWriter(now: int, connect: SenderSpec.ConnectOutcome) returns (w: Option<SenderSpec.Handle>)
      modifies this
      ensures (Model(), w) == SenderSpec.GetWriter(Settings(), old(Model()), now, connect)
      ensures old(Valid()) ==> Valid()
    {
      if writer.Some? {
        return writer;
      }
      if lastErrorTime + retryTimeout > now {
        return None;
      }
      attempts := attempts + 1;
      match connect {
        case Connected(rd, wr) =>
          reader, writer := Some(rd), Some(wr);
          errorCount := 0;
        case ConnectFailed(cause) =>
          SetLastError(Some(cause), now);
      }
      return writer;
    }

    /** _async_send_internal, reached through _async_send. */
    method Send(bytes: seq<Byte>, now: int, connect: SenderSpec.ConnectOutcome, write: SenderSpec.WriteOutcome)
      returns (ok: bool)
      modifies this
      ensures (Model(), ok) == SenderSpec.Send(Settings(), old(Model()), bytes, now, connect, write)
      ensures old(Valid()) ==> Valid()
    {
      var data := bytes;
      if |pendings| > 0 {
        pendings := pendings + bytes;
        data := pendings;
      }
      var w := GetWriter(now, connect);
      if w.None? {
        Clean(data);
        return false;
      }
      written := written + [data];
      match write {
        case WriteOk =>
          pendings := [];
          lastErrorTime := 0;
          return true;
        case WriteRaised(f) =>
          if f.IsTransport() {
            SetLastError(Some(f), now);
            Clean(data);
            Close();
          } else {
            errorCount := errorCount + 1;
            SetLastError(Some(f), now);
            Clean(data);
            if errorCount > errorCountLimit {
              Close();
            }
          }
          return false;
      }
    }
  }
}

=== FILE: sender_spec.dfy ===
/**
 * The emit/retry state machine of FluentSender as pure transitions on its
 * state. Each call runs alone (the asyncio lock and interleaving of
 * concurrent sends are not modelled); what the network and the clock
 * decide comes in as parameters: the outcome of opening a connection, the
 * outcome of the write-and-drain, and one reading of the clock, `now`.
 */
module SenderSpec {
  import opened Wrappers
  import opened Bytes

  /** An open stream end; only its identity matters here. */
  type Handle = nat

  /**
   * An exception seen while sending. Timeout, Cancelled and OSError (with
   * socket.error and BlockingIOError, both OSError) form the transport
   * class the send path catches first; Unhandled is every other exception.
   */
  datatype Failure = Timeout | Cancelled | OSError(errno: int) | Unhandled(name: string)
  {
    predicate IsTransport() { !Unhandled? }
  }

  /** What the connection factory yields: both stream ends, or a failure it recorded. */
  datatype ConnectOutcome = Connected(reader: Handle, writer: Handle) | ConnectFailed(cause: Failure)

  /** What writing and draining the payload yields. */
  datatype WriteOutcome = WriteOk | WriteRaised(cause: Failure)

  /** The constructor's settings that the state machine reads. */
  datatype Config = Config(bufmax: int, retryTimeout: int, errorCountLimit: int, hasOverflowHandler: bool)

  /**
   * The sender's mutable state. An empty `pendings` is the source's None:
   * the code only ever tests the backlog for truthiness. `overflowed` lists
   * every payload handed to the overflow handler, `attempts` counts the
   * calls into the connection factory and `written` lists every payload
   * handed to writer.write; none is kept by the source, they record what it
   * does.
   */
  datatype State = State(
    pendings: seq<Byte>,
    reader: Option<Handle>,
    writer: Option<Handle>,
    lastError: Option<Failure>,
    lastErrorTime: int,
    errorCount: nat,
    overflowed: seq<seq<Byte>>,
    attempts: nat,
    written: seq<seq<Byte>>)

  /** The state right after construction. */
  const Initial := State([], None, None, None, 0, 0, [], 0, [])

  /** The reader and the writer are set and cleared together. */
  predicate Valid(s: State) {
    s.reader.Some? == s.writer.Some?
  }

  /** The last_error setter: a failure is recorded with the time it was seen; None clears both. */
  function SetLastError(s: State, err: Option<Failure>, now: int): (r: State)
    ensures r.lastError == err
    ensures r.lastErrorTime == if err.Some? then now else 0
    ensures r.(lastError := s.lastError, lastErrorTime := s.lastErrorTime) == s
  {
    if err.Some? then s.(lastError := err, lastErrorTime := now) else ClearLastError(s)
  }

  /** clear_last_error: no recorded error, and no cooldown from one. */
  function ClearLastError(s: State): (r: State)
    ensures r.lastError.None? && r.lastErrorTime == 0
    ensures r.(lastError := s.lastError, lastErrorTime := s.lastErrorTime) == s
  {
    s.(lastError := None, lastErrorTime := 0)
  }

  /** close: drops both stream ends when a writer is open, and does nothing otherwise. */
  function Close(s: State): (r: State)
    ensures r.writer.None?
    ensures s.writer.Some? ==> r.reader.None?
    ensures s.writer.None? ==> r == s
    ensures r.(reader := s.reader, writer := s.writer) == s
  {
    if s.writer.Some? then s.(reader := None, writer := None) else s
  }

  /** Closing is idempotent: a second close changes nothing. */
  lemma CloseIdempotent(s: State)
    ensures Close(Close(s)) == Close(s)
    ensures Valid(s) ==> Valid(Close(s)) && Close(s).reader.None?
  {
  }

  /** _call_buffer_overflow_handler: the handler, if any, receives the events; its exceptions are swallowed. */
  function CallOverflowHandler(c: Config, s: State, events: seq<Byte>): (r: State)
    ensures r.overflowed == s.overflowed + if c.hasOverflowHandler then [events] else []
    ensures r.(overflowed := s.overflowed) == s
  {
    if c.hasOverflowHandler then s.(overflowed := s.overflowed + [events]) else s
  }

  /** The backlog is non-empty and longer than the cap. */
  predicate Overflowing(c: Config, s: State) {
    |s.pendings| > 0 && |s.pendings| > c.bufmax
  }

  /**
   * clean: an over-long existing backlog goes to the overflow handler and
   * is dropped (the given bytes with it); otherwise the backlog becomes
   * the given bytes, whatever their length.
   */
  function Clean(c: Config, s: State, bytes: seq<Byte>): (r: State)
    ensures Overflowing(c, s) ==> r.pendings == [] && r.overflowed == s.overflowed + if c.hasOverflowHandler then [s.pendings] else []
    ensures !Overflowing(c, s) ==> r.pendings == bytes && r.overflowed == s.overflowed
    ensures r.(pendings := s.pendings, overflowed := s.overflowed) == s
  {
    if Overflowing(c, s) then CallOverflowHandler(c, s, s.pendings).(pendings := [])
    else s.(pendings := bytes)
  }

  /** The cooldown after the last error has not run out yet (strictly). */
  predicate InCooldown(c: Config, s: State, now: int) {
    s.lastErrorTime + c.retryTimeout > now
  }

  /** get_writer calls the connection factory: there is no writer and no cooldown. */
  predicate AttemptsConnect(c: Config, s: State, now: int) {
    s.writer.None? && !InCooldown(c, s, now)
  }

  /**
   * get_writer: an open writer is returned as it is, without looking at
   * the cooldown; with none, nothing is attempted during the cooldown;
   * otherwise the factory is called, and only a successful connect installs
   * the stream ends and resets the error count, while a failed one records
   * its error (restarting the cooldown).
   */
  function GetWriter(c: Config, s: State, now: int, connect: ConnectOutcome): (r: (State, Option<Handle>))
    ensures r.1 == r.0.writer
    ensures s.writer.Some? ==> r.0 == s
    ensures !AttemptsConnect(c, s, now) ==> r.0 == s
    ensures r.0.attempts == s.attempts + if AttemptsConnect(c, s, now) then 1 else 0
    ensures r.1.Some? <==> s.writer.Some? || (AttemptsConnect(c, s, now) && connect.Connected?)
    ensures AttemptsConnect(c, s, now) && connect.Connected? ==>
      r.0.reader == Some(connect.reader) && r.0.writer == Some(connect.writer) && r.0.errorCount == 0
      && r.0.lastError == s.lastError && r.0.lastErrorTime == s.lastErrorTime
    ensures AttemptsConnect(c, s, now) && connect.ConnectFailed? ==>
      r.0.lastError == Some(connect.cause) && r.0.lastErrorTime == now
      && r.0.reader == s.reader && r.0.errorCount == s.errorCount
    ensures r.0.pendings == s.pendings && r.0.overflowed == s.overflowed && r.0.written == s.written
  {
    if s.writer.Some? then (s, s.writer)
    else if InCooldown(c, s, now) then (s, None)
    else
      var s1 := s.(attempts := s.attempts + 1);
      match connect
      case Connected(rd, wr) =>
        var s2 := s1.(reader := Some(rd), writer := Some(wr), errorCount := 0);
        (s2, s2.writer)
      case ConnectFailed(cause) =>
        var s2 := SetLastError(s1, Some(cause), now);
        (s2, s2.writer)
  }

  /** With no connection attempt, the connect outcome cannot matter. */
  lemma NoAttemptIgnoresOutcome(c: Config, s: State, now: int, o1: ConnectOutcome, o2: ConnectOutcome)
    requires !AttemptsConnect(c, s, now)
    ensures GetWriter(c, s, now, o1) == GetWriter(c, s, now, o2)
  {
  }

  /** The cooldown comparison is strict: at exactly lastErrorTime + retryTimeout a connect is attempted. */
  lemma CooldownBoundary(c: Config, s: State, connect: ConnectOutcome)
    requires s.writer.None?
    ensures GetWriter(c, s, s.lastErrorTime + c.retryTimeout, connect).0.attempts == s.attempts + 1
    ensures GetWriter(c, s, s.lastErrorTime + c.retryTimeout - 1, connect) == (s, None)
  {
  }

  /**
   * The two except branches of _async_send_internal. A transport failure is
   * recorded, the payload buffered and the connection always closed. Any
   * other failure also bumps the error count, and closes the connection only
   * once the count exceeds the limit.
   */
  function OnSendFailure(c: Config, s: State, f: Failure, bytes: seq<Byte>, now: int): (r: State)
    ensures r.lastError == Some(f) && r.lastErrorTime == now
    ensures r.errorCount == s.errorCount + if f.IsTransport() then 0 else 1
    ensures r.writer == if f.IsTransport() || s.errorCount + 1 > c.errorCountLimit then None else s.writer
    ensures r.pendings == Clean(c, s, bytes).pendings && r.overflowed == Clean(c, s, bytes).overflowed
    ensures r.attempts == s.attempts && r.written == s.written
    ensures Valid(s) ==> Valid(r)
  {
    if f.IsTransport() then
      Close(Clean(c, SetLastError(s, Some(f), now), bytes))
    else
      var s1 := SetLastError(s.(errorCount := s.errorCount + 1), Some(f), now);
      var s2 := Clean(c, s1, bytes);
      if s2.errorCount > c.errorCountLimit then Close(s2) else s2
  }

  /**
   * The backlog after a failed send of `bytes` from `s`: with a backlog
   * already there and the old and new bytes together over the cap, the
   * handler gets old and new bytes together and the backlog is dropped;
   * otherwise the backlog is the old bytes followed by the new ones.
   */
  predicate Buffered(c: Config, s: State, bytes: seq<Byte>, t: State) {
    var combined := s.pendings + bytes;
    if |s.pendings| > 0 && |combined| > c.bufmax then
      t.pendings == [] && t.overflowed == s.overflowed + if c.hasOverflowHandler then [combined] else []
    else
      t.pendings == combined && t.overflowed == s.overflowed
  }

  /** A writer is at hand for the write: an open one, or one this call connects. */
  predicate HasWriter(c: Config, s: State, now: int, connect: ConnectOutcome) {
    s.writer.Some? || (AttemptsConnect(c, s, now) && connect.Connected?)
  }

  /**
   * _async_send_internal (and _async_send, whose catch-all no modelled step
   * reaches): the backlog and the new bytes are coalesced, old bytes first,
   * and that is what is handed to the writer, which is the open one or the
   * one this call connects. Success empties the backlog and ends the
   * cooldown; failure buffers or overflows, records the error unless the
   * cooldown kept the call from trying, and closes as OnSendFailure says.
   */
  function Send(c: Config, s: State, bytes: seq<Byte>, now: int, connect: ConnectOutcome, write: WriteOutcome): (r: (State, bool))
    ensures r.1 <==> write.WriteOk? && HasWriter(c, s, now, connect)
    ensures r.1 ==>
      r.0.pendings == [] && r.0.lastErrorTime == 0 && r.0.lastError == s.lastError
      && r.0.errorCount == (if s.writer.Some? then s.errorCount else 0)
      && r.0.overflowed == s.overflowed && r.0.writer.Some?
    ensures HasWriter(c, s, now, connect) ==> r.0.written == s.written + [s.pendings + bytes]
    ensures !HasWriter(c, s, now, connect) ==> r.0.written == s.written
    ensures HasWriter(c, s, now, connect) && r.0.writer.Some? ==>
      r.0.writer == if s.writer.Some? then s.writer else Some(connect.writer)
    ensures HasWriter(c, s, now, connect) && r.0.writer.Some? ==>
      r.0.reader == if s.writer.Some? then s.reader else Some(connect.reader)
    ensures !r.1 ==> Buffered(c, s, bytes, r.0)
    ensures AttemptsConnect(c, s, now) && connect.ConnectFailed? ==>
      !r.1 && r.0.lastError == Some(connect.cause) && r.0.lastErrorTime == now
      && r.0.errorCount == s.errorCount && r.0.writer.None?
    ensures !HasWriter(c, s, now, connect) && !AttemptsConnect(c, s, now) ==>
      r.0.lastError == s.lastError && r.0.lastErrorTime == s.lastErrorTime
      && r.0.errorCount == s.errorCount && r.0.writer.None?
    ensures !r.1 && (s.writer.Some? || AttemptsConnect(c, s, now)) ==>
      r.0.lastError.Some? && r.0.lastErrorTime == now
    ensures HasWriter(c, s, now, connect) && write.WriteRaised? ==>
      var base := if s.writer.Some? then s.errorCount else 0;
      r.0.lastError == Some(write.cause)
      && r.0.errorCount == base + (if write.cause.IsTransport() then 0 else 1)
      && (r.0.writer.None? <==> write.cause.IsTransport() || base + 1 > c.errorCountLimit)
    ensures r.0.attempts == s.attempts + if AttemptsConnect(c, s, now) then 1 else 0
    ensures Valid(s) ==> Valid(r.0)
  {
    var data := if |s.pendings| > 0 then s.pendings + bytes else bytes;
    var s1 := if |s.pendings| > 0 then s.(pendings := data) else s;
    assert data == s.pendings + bytes;
    var got := GetWriter(c, s1, now, connect);
    var s2 := got.0;
    if got.1.None? then
      (Clean(c, s2, data), false)
    else
      var s3 := s2.(written := s2.written + [data]);
      match write
      case WriteOk => (s3.(pendings := [], lastErrorTime := 0), true)
      case WriteRaised(f) => (OnSendFailure(c, s3, f, data, now), false)
  }
}

=== FILE: sender_traces.dfy ===
/**
 * Properties of several sends in a row: backlog concatenation across
 * failures, the error-count threshold, and the cooldown after a failed
 * connect.
 */
module SenderTraces {
  import opened Wrappers
  import opened Bytes
  import opened SenderSpec

  /** One call of the send path, with what the network and the clock decide for it. */
  datatype Call = Call(bytes: seq<Byte>, now: int, connect: ConnectOutcome, write: WriteOutcome)

  /** The state after the calls run one after another, oldest first, and each call's result. */
  function Run(c: Config, s: State, calls: seq<Call>): (r: (State, seq<bool>))
    ensures |r.1| == |calls|
  {
    if calls == [] then (s, [])
    else
      var prev := Run(c, s, calls[..|calls| - 1]);
      var last := calls[|calls| - 1];
      var step := Send(c, prev.0, last.bytes, last.now, last.connect, last.write);
      (step.0, prev.1 + [step.1])
  }

  /** The bytes the calls send, in call order. */
  function Sent(calls: seq<Call>): (r: seq<Byte>)
  {
    if calls == [] then [] else Sent(calls[..|calls| - 1]) + calls[|calls| - 1].bytes
  }

  /**
   * Sends whose writes all raise, while the old backlog and the new bytes
   * together stay within the cap, all fail and leave as backlog the old
   * backlog followed by every payload in order; the overflow handler is
   * never called.
   */
  lemma {:induction false} FailedSendsAccumulate(c: Config, s: State, calls: seq<Call>)
    requires forall i :: 0 <= i < |calls| ==> calls[i].write.WriteRaised?
    requires |s.pendings + Sent(calls)| <= c.bufmax
    ensures Run(c, s, calls).0.pendings == s.pendings + Sent(calls)
    ensures Run(c, s, calls).0.overflowed == s.overflowed
    ensures forall i :: 0 <= i < |calls| ==> !Run(c, s, calls).1[i]
  {
    if calls != [] {
      var init, last := calls[..|calls| - 1], calls[|calls| - 1];
      assert Sent(calls) == Sent(init) + last.bytes;
      FailedSendsAccumulate(c, s, init);
      var prev := Run(c, s, init);
      assert prev.0.pendings + last.bytes == s.pendings + Sent(calls);
    }
  }

  /** Two failed sends A then B leave the backlog A ++ B, unless A alone was kept and A ++ B overflows. */
  lemma TwoFailedSends(c: Config, s: State, a: Call, b: Call)
    requires s.pendings == []
    requires a.write.WriteRaised? && b.write.WriteRaised?
    requires a.bytes == [] || |a.bytes + b.bytes| <= c.bufmax
    ensures Run(c, s, [a, b]).0.pendings == a.bytes + b.bytes
  {
    assert [a, b][..1] == [a];
    assert [a][..0] == [];
    FirstFailureKeepsAnyLength(c, s, a);
    var first := Run(c, s, [a]);
    assert Run(c, s, [a, b]).0 == Send(c, first.0, b.bytes, b.now, b.connect, b.write).0;
  }

  /** Running one more call is one more Send on the state the earlier calls left. */
  lemma RunSnoc(c: Config, s: State, calls: seq<Call>, call: Call)
    ensures var prev := Run(c, s, calls);
      var step := Send(c, prev.0, call.bytes, call.now, call.connect, call.write);
      Run(c, s, calls + [call]) == (step.0, prev.1 + [step.1])
  {
  }

  /** A failed send leaves the error time as it was or sets it to the call's time. */
  lemma FailureErrorTime(c: Config, s: State, call: Call)
    requires call.write.WriteRaised?
    ensures var t := Send(c, s, call.bytes, call.now, call.connect, call.write).0;
      t.lastErrorTime == s.lastErrorTime || t.lastErrorTime == call.now
  {
  }

  /**
   * Failed sends A then B, with A ++ B kept, followed by a send that gets a
   * writer (a connect at or after every cooldown) and succeeds: the write
   * carries A ++ B ++ C, old data first, and no backlog is left.
   */
  lemma BacklogSentOnSuccess(c: Config, s: State, a: Call, b: Call, ok: Call)
    requires s.pendings == []
    requires a.write.WriteRaised? && b.write.WriteRaised?
    requires a.bytes == [] || |a.bytes + b.bytes| <= c.bufmax
    requires ok.write == WriteOk && ok.connect.Connected?
    requires ok.now >= s.lastErrorTime + c.retryTimeout
    requires ok.now >= a.now + c.retryTimeout && ok.now >= b.now + c.retryTimeout
    ensures Run(c, s, [a, b, ok]).1 == [false, false, true]
    ensures Run(c, s, [a, b, ok]).0.written == Run(c, s, [a, b]).0.written + [a.bytes + b.bytes + ok.bytes]
    ensures Run(c, s, [a, b, ok]).0.pendings == []
  {
    RunSnoc(c, s, [], a);
    RunSnoc(c, s, [a], b);
    RunSnoc(c, s, [a, b], ok);
    assert [] + [a] == [a] && [a] + [b] == [a, b] && [a, b] + [ok] == [a, b, ok];
    var s1 := Send(c, s, a.bytes, a.now, a.connect, a.write).0;
    var s2 := Send(c, s1, b.bytes, b.now, b.connect, b.write).0;
    FailureErrorTime(c, s, a);
    FailureErrorTime(c, s1, b);
    TwoFailedSends(c, s, a, b);
    assert Run(c, s, [a, b]).0 == s2;
    assert HasWriter(c, s2, ok.now, ok.connect);
  }

  /**
   * With the backlog non-empty and over the cap together with the new bytes,
   * a failed send hands the handler (if any) exactly those combined bytes,
   * once, and empties the backlog.
   */
  lemma OverflowDropsBacklog(c: Config, s: State, call: Call)
    requires |s.pendings| > 0 && |s.pendings + call.bytes| > c.bufmax
    requires call.write.WriteRaised?
    ensures Run(c, s, [call]).0.pendings == []
    ensures Run(c, s, [call]).0.overflowed == s.overflowed + if c.hasOverflowHandler then [s.pendings + call.bytes] else []
  {
  }

  /** With no backlog the new bytes are kept whatever their length: the cap is checked only on the next failure. */
  lemma FirstFailureKeepsAnyLength(c: Config, s: State, call: Call)
    requires s.pendings == [] && call.write.WriteRaised?
    ensures Run(c, s, [call]).0.pendings == call.bytes
  {
  }

  /** Every call in the list, while connected, raises a non-transport exception on the write. */
  predicate AllInternal(calls: seq<Call>) {
    forall i :: 0 <= i < |calls| ==> calls[i].write.WriteRaised? && !calls[i].write.cause.IsTransport()
  }

  /**
   * Internal failures on an open connection count up the error count and
   * keep the connection while the count does not exceed the limit.
   */
  lemma {:induction false} InternalFailuresKeepConnection(c: Config, s: State, calls: seq<Call>)
    requires s.writer.Some? && AllInternal(calls)
    requires s.errorCount + |calls| <= c.errorCountLimit
    ensures Run(c, s, calls).0.writer == s.writer
    ensures Run(c, s, calls).0.errorCount == s.errorCount + |calls|
    ensures Run(c, s, calls).0.attempts == s.attempts
  {
    if calls != [] {
      InternalFailuresKeepConnection(c, s, calls[..|calls| - 1]);
    }
  }

  /**
   * With limit K and a connection just opened (error count 0), K internal
   * failures keep it and the (K+1)-th closes it.
   */
  lemma ThresholdBreachCloses(c: Config, s: State, calls: seq<Call>)
    requires s.writer.Some? && s.errorCount == 0 && AllInternal(calls)
    requires 0 <= c.errorCountLimit && |calls| == c.errorCountLimit + 1
    ensures Run(c, s, calls[..c.errorCountLimit]).0.writer == s.writer
    ensures Run(c, s, calls).0.writer.None?
    ensures Run(c, s, calls).0.errorCount == c.errorCountLimit + 1
  {
    var init := calls[..|calls| - 1];
    assert init == calls[..c.errorCountLimit];
    InternalFailuresKeepConnection(c, s, init);
  }

  /**
   * A collector that is down: the first send after construction tries,
   * fails to connect and records the error; a send before the cooldown has
   * run out fails without a new attempt, whatever the network would have
   * done; the first send at or after its end tries again.
   */
  lemma ListenerDown(c: Config, f: Failure, first: Call, early: Call, late: Call)
    requires first.connect == ConnectFailed(f) && c.retryTimeout <= first.now
    requires early.now < first.now + c.retryTimeout
    requires late.now >= first.now + c.retryTimeout
    ensures !Run(c, Initial, [first]).1[0]
    ensures Run(c, Initial, [first]).0.lastError == Some(f)
    ensures Run(c, Initial, [first]).0.attempts == 1
    ensures !Run(c, Initial, [first, early]).1[1] && Run(c, Initial, [first, early]).0.attempts == 1
    ensures Run(c, Initial, [first, late]).0.attempts == 2
  {
  }

  /**
   * After a failure, a successful send ends the cooldown (time 0) but keeps
   * the recorded error: a zero error time does not mean no error.
   */
  lemma SuccessKeepsLastError(c: Config, s: State, failed: Call, ok: Call)
    requires s.writer.Some? && failed.write.WriteRaised? && failed.write.cause.IsTransport()
    requires ok.write == WriteOk && ok.connect.Connected? && ok.now >= failed.now + c.retryTimeout
    ensures Run(c, s, [failed, ok]).1 == [false, true]
    ensures Run(c, s, [failed, ok]).0.lastError == Some(failed.write.cause)
    ensures Run(c, s, [failed, ok]).0.lastErrorTime == 0
  {
    assert [failed, ok][..1] == [failed];
    assert [failed][..0] == [];
    var after := Run(c, s, [failed]);
    var step := Send(c, s, failed.bytes, failed.now, failed.connect, failed.write);
    assert Run(c, s, []) == (s, []);
    assert after.0 == step.0;
    assert after.1 == [step.1];
    assert step.0.writer.None? && step.0.lastErrorTime == failed.now && step.0.lastError == Some(failed.write.cause);
    assert Run(c, s, [failed, ok]) == (Send(c, after.0, ok.bytes, ok.now, ok.connect, ok.write).0, after.1 + [Send(c, after.0, ok.bytes, ok.now, ok.connect, ok.write).1]);
  }
}

=== FILE: wrappers.dfy ===
/** The optional value used wherever the source uses `None`. */
module Wrappers {

  datatype Option<+T> = None | Some(value: T)
}
